=== FILE: README.md ===
# Object pool engine (EasySwoole `AbstractPool`) in Dafny

This project models the bookkeeping of EasySwoole's coroutine object pool,
`src/Pool/AbstractPool.php`. The model covers which objects exist, which sit in
the available channel, and which are checked out. Under Swoole's cooperative
scheduling that bookkeeping runs without interruption, so the pool is modelled as a
sequential state machine:

- `PoolTypes.PoolState` holds the channel as a FIFO `queue` of object identities.
- `members` is the `objHash` map: `true` means in the queue, `false` means checked out.
- The other fields are `lastUse` (the `__lastUseTime` stamps), `created` (`createdNum`),
  the `destroyed` flag and `nextId`, a supply of fresh identities that stands in for the random hash.
- Every PHP method that can throw or return a value is a pure function or a method
  that returns the new state and an `Outcome`: a returned value or a thrown `Fault`.
  `Pool.DestroyPool` returns only the new state, and `Pool.Status` only the report.
  `Pool.Checkout` is the state change at the end of a successful `getObj`.
- The factory and the object hooks (`createObject`, `beforeUse`, `objectRestore`,
  `gc`) are oracles. The caller supplies their outcomes.
  - Factory and `beforeUse` outcomes are indexed by the retry counter of the call
    that consults them (`tryTimes` in `getObj`, `$left` in `keepMin`). One `getObj`
    can reach the same counter value twice, after a caught failure of a nested retry.
    The model then gives the same outcome both times.
  - `gc` outcomes during idle eviction and release are indexed by the object.
    Shutdown never consults `gc`: its `unsetObj` calls are no-ops.
- `time()` is an integer `now` parameter.
- A channel `pop` returns the head, or nothing when the channel is empty.

`PoolTypes.Inv` is the invariant:

- every queued identity is a member marked `true`;
- the queue has no repeats;
- every member has a stamp and an identity below `nextId`;
- `created` equals the number of members;
- `created` is at most `maxObjectNum` (at most zero when that is negative).

The constructor establishes it (`Pool.NewPool`), and every transition requires it
and preserves it. So the transitions are defined on every state a
constructed pool can reach; `Inv` also admits some states no pool reaches. From the invariant, `status().inuse` is never
negative, and the channel of size `max + 8` never fills (`PoolTypes.QueueBound`).

Behaviour of the code worth knowing:

- `__lastUseTime` is stamped when an object is created and when it is acquired. It is
  not stamped when the object is released, so idle time counts from the last acquire.
- When `beforeUse` returns false or throws, `getObj` passes the popped object to
  `unsetObj` while it is still marked `true`. That call does nothing, so the object
  leaves the queue but stays counted for good (`Pool.TakeHead`,
  `PoolProperties.RefusedObjectStaysCounted`).
  `idleCheck` avoids this by first flipping the flag to `false`.
- `destroyPool` drains the queue through the same no-op path. The count therefore need
  not fall to zero after shutdown: objects queued at shutdown stay counted for good, and
  only the objects checked out at shutdown are removed when they come back.
  On a destroyed pool, `recycleObj` reports `true` for an object that was queued at
  shutdown and changes nothing (`PoolProperties.DestroyedQueuedObjectStaysCounted`).
- `keepMin` does not look at the destroyed flag, so it can still create objects
  after shutdown. `getObj` keeps returning null on such a pool.
- A retry after `beforeUse` returns false runs inside the `try` around `beforeUse`.
  A throw from that retry is caught: it is rethrown when the decremented counter is
  spent, and otherwise `getObj` retries once more with the counter decremented again.
  So a pool can answer null where the last object's hook threw
  (`PoolProperties.RefusedRetryCatchesThrow`).
- When `objectRestore` throws and `gc` then throws as well, the caller sees the
  `gc` error rather than the restore error.

## Model

| member | source | states |
|---|---|---|
| `Pool.NewPool` | src/Pool/AbstractPool.php:41-52 | construction fails with the object-number error exactly when min >= max; otherwise it yields an empty live pool satisfying the invariant |
| `PoolTypes.QueueBound` | src/Pool/AbstractPool.php:48 | in every reachable state, queue length <= created <= max, so the channel sized max + 8 never fills |
| `Pool.IsPoolObject` | src/Pool/AbstractPool.php:264-271 | an object is a pool object exactly when it carries a hash and this pool tracks that hash |
| `Pool.IsInPool` | src/Pool/AbstractPool.php:273-280 | an object is in the pool exactly when it is a pool object whose entry is marked true |
| `Pool.MembershipGates` | src/Pool/AbstractPool.php:264-280 | in every reachable state a queued object is "in pool"; "checked out" (member, not in pool) means exactly lent out, and such an object is not in the queue |
| `Pool.InitObject` | src/Pool/AbstractPool.php:237-262 | at capacity it returns false and changes nothing; on success one fresh identity, marked true and stamped now, is appended and the count rises by one; a non-object or a throwing factory leaves the state unchanged (the throw carries the factory's error); the invariant is kept |
| `Pool.UnsetObj` | src/Pool/AbstractPool.php:147-167 | only a checked-out member is removed, and then the entry goes and the count drops by exactly one whether or not gc throws; otherwise false and no change |
| `Pool.UnsetQueuedIsNoOp` | src/Pool/AbstractPool.php:149 | unsetObj on an object still marked as queued returns false and changes nothing, whatever gc would do |
| `Pool.RecycleObj` | src/Pool/AbstractPool.php:57-85 | on a live pool a foreign or already-queued object is rejected with no change; a checked-out one is re-marked true and appended when restore succeeds, or removed (count down by one) with the restore error, or gc's, thrown; on a destroyed pool only a checked-out object is removed (count down by one), and the result is true, or gc's error when gc throws; the checked-out set loses just this object |
| `Pool.Checkout` | src/Pool/AbstractPool.php:134-138 | a popped object becomes checked out and stamped now; it was not checked out before and no other object changes status |
| `Pool.GetObj` | src/Pool/AbstractPool.php:90-142 | a destroyed pool returns null with no change; with a queued head it behaves as TakeHead; an empty queue at capacity, or whose factory returns a non-object, gives null with no change; an empty queue with room, a working factory and a passing beforeUse lends the fresh object and raises the count by one; with room, a working factory and a beforeUse that refuses or throws, the fresh object is dropped: still counted and marked `true`, but not in the queue; on every path (`Acquisition`) a returned object was not checked out before, is checked out afterwards and stamped now, and is the only change to the checked-out set; a throw carries the error of the last attempt's factory or beforeUse; no member is lost, the count never falls, and an object already dropped stays dropped |
| `Pool.TakeHead` | src/Pool/AbstractPool.php:111-138 | a head that passes beforeUse is lent out and leaves the queue; a head that beforeUse refuses or throws on leaves the queue yet stays a member marked true, whatever the retries do; on the last attempt a refusal gives null and a throw rethrows the hook's error, with only the head popped; the retry after a refusal has its throw caught, so the same path guarantees as getObj hold |
| `Pool.Status` | src/Pool/AbstractPool.php:227-235 | on every reachable state it reports created, max and min, and inuse equals the number of members not in the queue, between 0 and created |
| `Pool.InUseCount` | src/Pool/AbstractPool.php:231 | created minus the queue length is the number of members outside the queue, so it lies between 0 and created |
| `Pool.DestroyPool` | src/Pool/AbstractPool.php:282-293 | afterwards the pool is destroyed and the queue empty, while the members, the count and the stamps are unchanged |
| `Pool.Invoke` | src/Pool/AbstractPool.php:355-372 | the set of checked-out objects is the same before and after; no object means a PoolEmpty throw; an acquisition error is rethrown; with a successful restore the callback's result or error is what the caller sees and the object is back at the queue's tail; a throwing restore, or gc after it, replaces the callback's outcome with that error, since the release sits in a finally |
| `Maintenance.Expired` | src/Pool/AbstractPool.php:177 | an object is expired exactly when strictly more than idleTime seconds have passed since its stamp |
| `Maintenance.EvictHead` | src/Pool/AbstractPool.php:176-181 | an expired head is popped, flagged false and removed: the count drops by one, it is no longer a member, and the checked-out set is unchanged |
| `Maintenance.Sweep` | src/Pool/AbstractPool.php:175-188 | when no gc throws, the channel ends as the kept objects followed by the survivors in queue order, the expired ones leave the membership map and the count drops by their number; the invariant holds on every path |
| `Maintenance.IdleCheck` | src/Pool/AbstractPool.php:172-189 | when no gc throws, the queue becomes the survivors in their original order, and exactly the expired queued objects are removed, one count each; the checked-out set is untouched |
| `Maintenance.KeepMin` | src/Pool/AbstractPool.php:200-210 | from created >= num it is a no-op returning created; from created < num with a factory that always succeeds it ends with created = min(num, max) and returns it; new objects are appended after the existing queue, one count each |
| `Maintenance.PreLoad` | src/Pool/AbstractPool.php:215-218 | from created >= num it is a no-op returning created; from created < num with a factory that always succeeds it ends with created = min(num, max); new objects are appended after the existing queue, one count each, and the checked-out set and destroyed flag are unchanged |
| `Maintenance.IntervalCheck` | src/Pool/AbstractPool.php:194-198 | the destroyed flag is unchanged; with gc hooks and a factory that succeed, afterwards min <= created <= max and the idle survivors lead the queue; checked-out objects are untouched |
| `PoolProperties.GetObjCreationRetries` | src/Pool/AbstractPool.php:99-109 | with an empty queue and room to grow, getObj(tryTimes = k) throws the factory error, leaving the state unchanged, when all k + 1 creation attempts fail |
| `PoolProperties.GetObjRecovers` | src/Pool/AbstractPool.php:99-111 | if only the attempts before attempt i fail and attempt i creates an object that passes beforeUse, getObj returns that fresh object and the count rises by one |
| `PoolProperties.FlakyFactoryScenario` | src/Pool/AbstractPool.php:90-111 | a factory failing twice and then succeeding still yields an object with the default three retries |
| `PoolProperties.NoDoubleCheckout` | src/Pool/AbstractPool.php:134-136 | two acquisitions with no release in between never return the same object |
| `PoolProperties.DoubleRecycleRejected` | src/Pool/AbstractPool.php:66-84 | releasing a checked-out object a second time returns false and changes nothing |
| `PoolProperties.UnsetOnce` | src/Pool/AbstractPool.php:149-163 | removing a checked-out object lowers the count once; removing it again returns false with no change |
| `PoolProperties.ForeignObjectRejected` | src/Pool/AbstractPool.php:264-271 | an object without a hash, or with one the pool does not track, is rejected by recycleObj on a live pool and by unsetObj, with no change |
| `PoolProperties.RefusedObjectStaysCounted` | src/Pool/AbstractPool.php:113-123 | when beforeUse refuses the last attempt's object, getObj returns null; the object stays counted and marked true but out of the queue, and neither recycleObj nor unsetObj can reclaim it |
| `PoolProperties.RefusedRetryCatchesThrow` | src/Pool/AbstractPool.php:113-131 | on any live pool one object short of full with two queued objects, where the first is refused and every later beforeUse throws, getObj(2) ends in null, not the hook's error, because the pool is then full; the queue is empty, the count rises by one, both queued objects stay counted as dropped, and the checked-out set is unchanged |
| `PoolProperties.DestroyedQueuedObjectStaysCounted` | src/Pool/AbstractPool.php:59-62 | on a destroyed pool, recycling an object that was queued at shutdown returns true and changes nothing |
| `PoolProperties.IdleCheckKeeps` | src/Pool/AbstractPool.php:175-188 | when no gc throws, an object is queued afterwards iff it was queued and not expired (now - lastUse <= idleTime) |
| `PoolProperties.IdleCheckRemoves` | src/Pool/AbstractPool.php:177-181 | when no gc throws, every expired queued object leaves the membership map and every other member keeps its flag |
| `PoolProperties.IdleCheckCount` | src/Pool/AbstractPool.php:172-189 | when no gc throws, the count falls by exactly the number of distinct objects evicted |
| `PoolProperties.IdleBoundary` | src/Pool/AbstractPool.php:177 | the age test is strict: an object exactly idleTime old survives, one a second older is removed |
| `PoolProperties.LendFresh` | src/Pool/AbstractPool.php:99-138 | with an empty queue and room to grow, a fresh object that passes beforeUse is created, marked checked out and stamped; the count and the identity supply rise by one and nothing else changes |
| `PoolProperties.LendHead` | src/Pool/AbstractPool.php:111-138 | a queued head that passes beforeUse leaves the queue, is marked checked out and stamped, and nothing else changes |
| `PoolProperties.TwoSlotScenario` | src/Pool/AbstractPool.php:90-142 | on a freshly constructed pool with max 2, where attempt 3 always yields an object that passes beforeUse, two acquisitions succeed and a third gets nothing; after one release the third gets the released object, and status shows two in use |

## Left out

- Swoole channel blocking and pop/push timeouts: `pop` is non-blocking, so the timeout argument of `getObj` and `invoke` and the default from the configuration are not modelled. A `getObj` that would wait for a release returns null at once.
- `Timer::tick` and `Timer::clear` in the constructor and `destroyPool`: these belong to an external scheduler. `intervalCheck` is modelled as a plain operation.
- `__callStatic` (static `invoke` and `defer`): these depend on the `PoolManager` registry lookup by class name and on `md5`. PoolManager is not part of this model.
- Instance `defer` in `__call`: it depends on `ContextManager` task-local storage and `Coroutine::defer`.
- The unknown-method branch of `__call` and `__callStatic`: it is a plain throw with no pool state involved.
- `Random::character(12)`: replaced by the fresh identity supply `nextId`, so hash collisions are out of scope.
- What the factory and the hooks do: only their outcomes are modelled. An object that does not implement `PoolObjectInterface` behaves like one whose hooks always succeed (`Ready`/`Ok`).
- The `null` argument of `keepMin` and `preLoad` is left out because it depends on PHP loose comparison. The argument is an `int`.
- `getConfig` is a plain accessor. The timeout and interval fields of the configuration are left out, since only the timers and waits use them.
- `idleCheck` reads `time()` once per popped object. The model uses one `now` for the whole sweep.
- `Maintenance.IdleCheck`: when a `gc` hook throws, the contract states only that the invariant holds and the checked-out set is unchanged. It does not state which popped survivors were lost from the queue.
- `Maintenance.KeepMin`: when the factory throws or returns a non-object, the contract states only the invariant, the queue prefix and the count bookkeeping. It does not give the final count.
- `Pool.GetObj`: when one call reaches the same retry counter value twice, the factory and `beforeUse` give the same outcome both times. A source factory may give different outcomes on the two calls.
- `Pool.Invoke`: the callback is an outcome given in advance rather than a function of the borrowed object.
  Nothing acts on the pool between acquisition and release: neither the callback nor
  another coroutine. In the source the callback can suspend, or call `recycleObj`
  itself, so the release in the `finally` could see a destroyed pool or return false.
  The model composes `GetObj` and `RecycleObj` directly.

=== FILE: maintenance.dfy ===
/**
  Pool maintenance: idle eviction (`idleCheck`), minimum-population top-up
  (`keepMin` / `preLoad`) and the composite `intervalCheck`.
 */
module Maintenance {
  import opened Seqs
  import opened PoolTypes
  import opened Pool

  /** An object is idle for too long when strictly more than `idle` seconds
      have passed since its stamp. */
  predicate Expired(lastUse: map<Id, int>, idle: int, now: int, id: Id)
  {
    id in lastUse && now - lastUse[id] > idle
  }

  /** Reference definition: the queued objects that survive eviction, in queue order. */
  function Survivors(q: seq<Id>, lastUse: map<Id, int>, idle: int, now: int): seq<Id>
  {
    if q == [] then []
    else (if Expired(lastUse, idle, now, q[0]) then [] else [q[0]]) + Survivors(q[1..], lastUse, idle, now)
  }

  /** Reference definition: the queued objects that eviction removes, in queue order. */
  function Evicted(q: seq<Id>, lastUse: map<Id, int>, idle: int, now: int): seq<Id>
  {
    if q == [] then []
    else (if Expired(lastUse, idle, now, q[0]) then [q[0]] else []) + Evicted(q[1..], lastUse, idle, now)
  }

  /** Survivors and evicted objects split the queue between them. */
  lemma {:induction false} SplitSpec(q: seq<Id>, lastUse: map<Id, int>, idle: int, now: int)
    ensures forall x :: x in Survivors(q, lastUse, idle, now) <==> x in q && !Expired(lastUse, idle, now, x)
    ensures forall x :: x in Evicted(q, lastUse, idle, now) <==> x in q && Expired(lastUse, idle, now, x)
    ensures |Survivors(q, lastUse, idle, now)| + |Evicted(q, lastUse, idle, now)| == |q|
  {
    if q != [] {
      SplitSpec(q[1..], lastUse, idle, now);
      assert forall x :: x in q <==> x == q[0] || x in q[1..] by {
        assert q == [q[0]] + q[1..];
      }
    }
  }

  /** Both parts of a repeat-free queue are repeat-free. */
  lemma {:induction false} SplitDistinct(q: seq<Id>, lastUse: map<Id, int>, idle: int, now: int)
    requires Distinct(q)
    ensures Distinct(Survivors(q, lastUse, idle, now))
    ensures Distinct(Evicted(q, lastUse, idle, now))
  {
    if q != [] {
      DistinctTail(q);
      SplitDistinct(q[1..], lastUse, idle, now);
      SplitSpec(q[1..], lastUse, idle, now);
      var st := Survivors(q[1..], lastUse, idle, now);
      var et := Evicted(q[1..], lastUse, idle, now);
      if Expired(lastUse, idle, now, q[0]) {
        assert Evicted(q, lastUse, idle, now) == [q[0]] + et;
        DistinctCons(q[0], et);
      } else {
        assert Survivors(q, lastUse, idle, now) == [q[0]] + st;
        DistinctCons(q[0], st);
      }
    }
  }

  /** Pop an expired head, flag it `false` and hand it to `unsetObj`. */
  function EvictHead(cfg: PoolConf, s: PoolState, gc: Hook): (u: Step<bool>)
    requires Inv(cfg, s)
    requires s.queue != []
    ensures Inv(cfg, u.state)
    ensures u.state.queue == s.queue[1..]
    ensures u.state.members == s.members - {s.queue[0]}
    ensures u.state.created == s.created - 1
    ensures u.state.destroyed == s.destroyed && u.state.lastUse == s.lastUse && u.state.nextId == s.nextId
    ensures CheckedOutIds(u.state) == CheckedOutIds(s)
    ensures u.out.Threw? <==> gc.HookFails?
  {
    var x := s.queue[0];
    PopKeepsInv(cfg, s);
    var flagged := s.(queue := s.queue[1..], members := s.members[x := false]);
    assert CheckedOutIds(flagged) == CheckedOutIds(s) + {x};
    var u := UnsetObj(cfg, flagged, Tagged(x), gc);
    assert u.state.members == s.members - {x};
    u
  }

  /** `t` is what sweeping the queue of `s` leaves when no `gc` throws, with
      `kept` the survivors already set aside: the kept objects followed by the
      survivors, and the evicted objects gone from the membership map, one count each. */
  predicate SweptTo(s: PoolState, kept: seq<Id>, idle: int, now: int, t: PoolState)
  {
    && t.queue == kept + Survivors(s.queue, s.lastUse, idle, now)
    && t.members == s.members - Elems(Evicted(s.queue, s.lastUse, idle, now))
    && t.created == s.created - |Evicted(s.queue, s.lastUse, idle, now)|
  }

  /** Evicting an expired head and then sweeping the rest is sweeping the whole queue. */
  lemma EvictedHead(s: PoolState, u: PoolState, r: PoolState, kept: seq<Id>, idle: int, now: int)
    requires s.queue != [] && Expired(s.lastUse, idle, now, s.queue[0])
    requires u.queue == s.queue[1..] && u.lastUse == s.lastUse
    requires u.members == s.members - {s.queue[0]} && u.created == s.created - 1
    requires SweptTo(u, kept, idle, now, r)
    ensures SweptTo(s, kept, idle, now, r)
  {
    assert Evicted(s.queue, s.lastUse, idle, now) == [s.queue[0]] + Evicted(u.queue, u.lastUse, idle, now);
  }

  /** Setting a surviving head aside and then sweeping the rest is sweeping the whole queue. */
  lemma SurvivingHead(s: PoolState, r: PoolState, kept: seq<Id>, idle: int, now: int)
    requires s.queue != [] && !Expired(s.lastUse, idle, now, s.queue[0])
    requires SweptTo(s.(queue := s.queue[1..]), kept + [s.queue[0]], idle, now, r)
    ensures SweptTo(s, kept, idle, now, r)
  {
    assert Survivors(s.queue, s.lastUse, idle, now) == [s.queue[0]] + Survivors(s.queue[1..], s.lastUse, idle, now);
  }

  /** The drain loop of `idleCheck`: `s.queue` is what is still in the channel,
      `kept` the survivors popped so far. An expired object is flagged `false`
      and handed to `unsetObj`; a throwing `gc` aborts the sweep, and the
      survivors popped so far are then never pushed back. */
  function Sweep(cfg: PoolConf, s: PoolState, kept: seq<Id>, idle: int, now: int, gc: Id -> Hook): (r: Step<()>)
    requires Inv(cfg, s)
    requires Distinct(kept)
    requires forall y :: y in kept ==> Dropped(s, y)
    ensures Inv(cfg, r.state)
    ensures r.state.destroyed == s.destroyed && r.state.lastUse == s.lastUse && r.state.nextId == s.nextId
    ensures CheckedOutIds(r.state) == CheckedOutIds(s)
    ensures r.out.Done? ==> SweptTo(s, kept, idle, now, r.state)
    ensures (forall x :: x in s.queue ==> gc(x) == Ok) ==> r.out.Done?
    decreases |s.queue|
  {
    if s.queue == [] then
      assert kept + [] == kept;
      assert forall i :: 0 <= i < |kept| ==> Dropped(s, kept[i]);
      Step(s.(queue := kept), Done(()))
    else
      var x := s.queue[0];
      PopKeepsInv(cfg, s);
      if Expired(s.lastUse, idle, now, x) then
        var u := EvictHead(cfg, s, gc(x));
        if u.out.Threw? then Step(u.state, Threw(u.out.fault))
        else
          assert forall y :: y in kept ==> y != x && Dropped(u.state, y);
          var r := Sweep(cfg, u.state, kept, idle, now, gc);
          if r.out.Done? then
            EvictedHead(s, u.state, r.state, kept, idle, now);
            r
          else r
      else
        DistinctAppend(kept, x);
        var popped := s.(queue := s.queue[1..]);
        assert forall y :: y in kept + [x] ==> Dropped(popped, y);
        var r := Sweep(cfg, popped, kept + [x], idle, now, gc);
        if r.out.Done? then
          SurvivingHead(s, r.state, kept, idle, now);
          r
        else r
  }

  /** `idleCheck(idleTime)` at time `now`, with the outcome of `gc` per object. */
  function IdleCheck(cfg: PoolConf, s: PoolState, idle: int, now: int, gc: Id -> Hook): (r: Step<()>)
    requires Inv(cfg, s)
    ensures Inv(cfg, r.state)
    ensures r.state.destroyed == s.destroyed && r.state.lastUse == s.lastUse
    ensures CheckedOutIds(r.state) == CheckedOutIds(s)
    ensures r.out.Done? ==>
      && r.state.queue == Survivors(s.queue, s.lastUse, idle, now)
      && r.state.members == s.members - Elems(Evicted(s.queue, s.lastUse, idle, now))
      && r.state.created == s.created - |Evicted(s.queue, s.lastUse, idle, now)|
    ensures (forall x :: x in s.queue ==> gc(x) == Ok) ==> r.out.Done?
  {
    var r := Sweep(cfg, s, [], idle, now, gc);
    assert [] + Survivors(s.queue, s.lastUse, idle, now) == Survivors(s.queue, s.lastUse, idle, now);
    r
  }

  /** Every factory call creates an object. */
  ghost predicate AlwaysMakes(create: int -> Creation)
  {
    forall k :: create(k) == Made
  }

  function Min(a: int, b: int): int
  {
    if a < b then a else b
  }

  /** `t` is `s` with new objects appended to the queue, one count each,
      and no change to which objects are lent out. */
  predicate Extends(s: PoolState, t: PoolState)
  {
    && t.destroyed == s.destroyed
    && CheckedOutIds(t) == CheckedOutIds(s)
    && s.queue <= t.queue && s.members.Keys <= t.members.Keys
    && t.created - s.created == |t.queue| - |s.queue|
  }

  /** One `initObject` call keeps extending the starting state. */
  lemma ExtendStep(cfg: PoolConf, s: PoolState, t: PoolState, now: int, made: Creation)
    requires Inv(cfg, t) && Extends(s, t)
    ensures Extends(s, InitObject(cfg, t, now, made).state)
  {
  }

  /** One successful factory call in `keepMin` raises the count by one until the capacity is reached. */
  lemma MadeStep(cfg: PoolConf, s: PoolState, now: int, num: int, left: int)
    requires Inv(cfg, s) && left > 0
    requires s.created == Min(num - left, Capacity(cfg))
    ensures InitObject(cfg, s, now, Made).state.created == Min(num - (left - 1), Capacity(cfg))
  {
  }

  /** `keepMin(num)`: call `initObject` once per missing object, the factory's
      outcome on the call with `left` objects still to go being `create(left)`.
      A throwing factory aborts the loop. */
  method KeepMin(cfg: PoolConf, s: PoolState, num: int, now: int, create: int -> Creation) returns (r: Step<int>)
    requires Inv(cfg, s)
    ensures Inv(cfg, r.state)
    ensures Extends(s, r.state)
    ensures r.out.Done? ==> r.out.value == r.state.created
    ensures s.created >= num ==> r == Step(s, Done(s.created))
    ensures s.created < num && AlwaysMakes(create) ==>
      r.out == Done(Min(num, Capacity(cfg))) && r.state.created == Min(num, Capacity(cfg))
  {
    var st := s;
    if st.created < num {
      var left := num - st.created;
      while left > 0
        invariant 0 <= left <= num - s.created
        invariant Inv(cfg, st)
        invariant Extends(s, st)
        invariant AlwaysMakes(create) ==> st.created == Min(num - left, Capacity(cfg))
      {
        var step := InitObject(cfg, st, now, create(left));
        ExtendStep(cfg, s, st, now, create(left));
        if AlwaysMakes(create) {
          MadeStep(cfg, st, now, num, left);
        }
        if step.out.Threw? {
          return Step(step.state, Threw(step.out.fault));
        }
        st := step.state;
        left := left - 1;
      }
    }
    return Step(st, Done(st.created));
  }

  /** `preLoad(num)`: the cold-start alias of `keepMin`. */
  method PreLoad(cfg: PoolConf, s: PoolState, num: int, now: int, create: int -> Creation) returns (r: Step<int>)
    requires Inv(cfg, s)
    ensures Inv(cfg, r.state)
    ensures Extends(s, r.state)
    ensures r.out.Done? ==> r.out.value == r.state.created
    ensures s.created >= num ==> r == Step(s, Done(s.created))
    ensures s.created < num && AlwaysMakes(create) ==>
      r.out == Done(Min(num, Capacity(cfg))) && r.state.created == Min(num, Capacity(cfg))
  {
    r := KeepMin(cfg, s, num, now, create);
  }

  /** `intervalCheck`: evict idle objects, then top up to the configured minimum. */
  method IntervalCheck(cfg: PoolConf, s: PoolState, now: int, gc: Id -> Hook, create: int -> Creation)
    returns (r: Step<()>)
    requires Inv(cfg, s)
    ensures Inv(cfg, r.state)
    ensures r.state.destroyed == s.destroyed
    ensures CheckedOutIds(r.state) == CheckedOutIds(s)
    ensures (forall x :: x in s.queue ==> gc(x) == Ok) && AlwaysMakes(create) ==>
      && r.out.Done?
      && cfg.minObjectNum <= r.state.created <= Capacity(cfg)
      && Survivors(s.queue, s.lastUse, cfg.maxIdleTime, now) <= r.state.queue
  {
    var idle := IdleCheck(cfg, s, cfg.maxIdleTime, now, gc);
    if idle.out.Threw? {
      return Step(idle.state, Threw(idle.out.fault));
    }
    var kept := KeepMin(cfg, idle.state, cfg.minObjectNum, now, create);
    r := Step(kept.state, if kept.out.Threw? then Threw(kept.out.fault) else Done(()));
  }
}

=== FILE: pool.dfy ===
/**
  The acquire/release protocol of the pool: construction, object creation,
  release, permanent removal, acquisition with retries, status, shutdown and
  the instance `invoke` helper.

  Every transition is defined on states satisfying `Inv`: the constructor
  establishes it and each transition preserves it, so these are exactly the
  states a pool object can be in.
 */
module Pool {
  import opened Seqs
  import opened PoolTypes

  /** The constructor: rejects `min >= max`, otherwise an empty live pool. */
  function NewPool(cfg: PoolConf): (r: Outcome<PoolState>)
    ensures r.Done? <==> cfg.minObjectNum < cfg.maxObjectNum
    ensures r.Threw? ==> r.fault == PoolObjectNumError
    ensures r.Done? ==> Inv(cfg, r.value) && r.value.queue == [] && r.value.created == 0
                        && !r.value.destroyed
  {
    if cfg.minObjectNum >= cfg.maxObjectNum then Threw(PoolObjectNumError)
    else Done(PoolState([], map[], map[], 0, false, 0))
  }

  /** The object carries a hash this pool has issued and still tracks. */
  predicate IsPoolObject(s: PoolState, obj: Handle)
  {
    obj.Tagged? && obj.id in s.members
  }

  /** The object is tracked and marked as sitting in the queue. */
  predicate IsInPool(s: PoolState, obj: Handle)
  {
    IsPoolObject(s, obj) && s.members[obj.id]
  }

  /** The gate of `recycleObj` and `unsetObj`: tracked but lent out. */
  predicate CheckedOut(s: PoolState, obj: Handle)
  {
    IsPoolObject(s, obj) && !IsInPool(s, obj)
  }

  /** The membership predicates agree with the queue and the checked-out set. */
  lemma MembershipGates(cfg: PoolConf, s: PoolState, obj: Handle)
    requires Inv(cfg, s)
    ensures obj.Tagged? && obj.id in s.queue ==> IsInPool(s, obj)
    ensures CheckedOut(s, obj) <==> obj.Tagged? && obj.id in CheckedOutIds(s)
    ensures CheckedOut(s, obj) ==> obj.id !in s.queue
  {
  }

  /** `initObject`: create one object if the count allows it and queue it. */
  function InitObject(cfg: PoolConf, s: PoolState, now: int, made: Creation): (r: Step<bool>)
    requires Inv(cfg, s)
    ensures Inv(cfg, r.state)
    ensures r.state.destroyed == s.destroyed
    ensures CheckedOutIds(r.state) == CheckedOutIds(s)
    ensures r.out == Done(true) <==> made.Made? && s.created < cfg.maxObjectNum
    ensures r.out.Threw? <==> made.CreateFails? && s.created < cfg.maxObjectNum
    ensures r.out.Threw? ==> r.out.fault == made.fault
    ensures r.out != Done(true) ==> r.state == s
    ensures forall x :: Dropped(s, x) ==> Dropped(r.state, x)
    ensures r.out == Done(true) ==>
      && s.nextId !in s.members
      && r.state.queue == s.queue + [s.nextId]
      && r.state.members == s.members[s.nextId := true]
      && r.state.lastUse == s.lastUse[s.nextId := now]
      && r.state.created == s.created + 1
      && r.state.nextId > s.nextId
  {
    if s.created + 1 > cfg.maxObjectNum then Step(s, Done(false))
    else
      match made
      case Made =>
        var id := s.nextId;
        assert id !in s.queue;
        DistinctAppend(s.queue, id);
        var r := s.(queue := s.queue + [id], members := s.members[id := true],
                     lastUse := s.lastUse[id := now], created := s.created + 1, nextId := id + 1);
        assert CheckedOutIds(r) == CheckedOutIds(s);
        Step(r, Done(true))
      case NotObject => Step(s, Done(false))
      case CreateFails(f) => Step(s, Threw(f))
  }

  /** `unsetObj`: permanently remove a checked-out member; the count drops
      exactly once even when `gc` throws. Anything else is left alone. */
  function UnsetObj(cfg: PoolConf, s: PoolState, obj: Handle, gc: Hook): (r: Step<bool>)
    requires Inv(cfg, s)
    ensures Inv(cfg, r.state)
    ensures r.state.queue == s.queue && r.state.lastUse == s.lastUse
    ensures r.state.destroyed == s.destroyed && r.state.nextId == s.nextId
    ensures !CheckedOut(s, obj) ==> r == Step(s, Done(false))
    ensures CheckedOut(s, obj) ==>
      && r.state.members == s.members - {obj.id}
      && r.state.created == s.created - 1
      && (gc.Ok? ==> r.out == Done(true))
      && (gc.HookFails? ==> r.out == Threw(gc.fault))
    ensures obj.Tagged? ==> CheckedOutIds(r.state) == CheckedOutIds(s) - {obj.id}
  {
    if CheckedOut(s, obj) then
      var id := obj.id;
      var members := s.members - {id};
      assert members.Keys == s.members.Keys - {id};
      var r := s.(members := members, created := s.created - 1);
      assert CheckedOutIds(r) == CheckedOutIds(s) - {id};
      Step(r, if gc.Ok? then Done(true) else Threw(gc.fault))
    else
      assert obj.Tagged? ==> CheckedOutIds(s) - {obj.id} == CheckedOutIds(s);
      Step(s, Done(false))
  }

  /** `unsetObj` on an object still marked as queued does nothing: this is
      why `getObj` and `destroyPool` keep the count of objects they drop. */
  lemma UnsetQueuedIsNoOp(cfg: PoolConf, s: PoolState, id: Id, gc: Hook)
    requires Inv(cfg, s)
    requires id in s.members && s.members[id]
    ensures UnsetObj(cfg, s, Tagged(id), gc) == Step(s, Done(false))
  {
  }

  /** `recycleObj`: give a lent-out object back. */
  function RecycleObj(cfg: PoolConf, s: PoolState, obj: Handle, restore: Hook, gc: Hook): (r: Step<bool>)
    requires Inv(cfg, s)
    ensures Inv(cfg, r.state)
    ensures r.state.destroyed == s.destroyed
    ensures obj.Tagged? ==> CheckedOutIds(r.state) == CheckedOutIds(s) - {obj.id}
    ensures !CheckedOut(s, obj) ==> r.state == s && r.out == Done(s.destroyed)
    ensures s.destroyed ==> r.state.queue == s.queue && r.out != Done(false)
    ensures s.destroyed && CheckedOut(s, obj) ==>
      && r.state.members == s.members - {obj.id}
      && r.state.created == s.created - 1
      && (gc.Ok? ==> r.out == Done(true))
      && (gc.HookFails? ==> r.out == Threw(gc.fault))
    ensures !s.destroyed && CheckedOut(s, obj) && restore.Ok? ==>
      && r.out == Done(true)
      && r.state.queue == s.queue + [obj.id]
      && r.state.members == s.members[obj.id := true]
      && r.state.created == s.created
      && r.state.lastUse == s.lastUse
    ensures !s.destroyed && CheckedOut(s, obj) && restore.HookFails? ==>
      && r.state.queue == s.queue
      && r.state.members == s.members - {obj.id}
      && r.state.created == s.created - 1
      && r.out == Threw(if gc.HookFails? then gc.fault else restore.fault)
  {
    if s.destroyed then
      var u := UnsetObj(cfg, s, obj, gc);
      Step(u.state, if u.out.Threw? then Threw(u.out.fault) else Done(true))
    else if CheckedOut(s, obj) then
      var id := obj.id;
      match restore
      case Ok =>
        DistinctAppend(s.queue, id);
        var r := s.(members := s.members[id := true], queue := s.queue + [id]);
        assert CheckedOutIds(r) == CheckedOutIds(s) - {id};
        Step(r, Done(true))
      case HookFails(f) =>
        // the flag goes back to false before the removal, which is `s.members` again
        var u := UnsetObj(cfg, s, obj, gc);
        Step(u.state, if u.out.Threw? then Threw(u.out.fault) else Threw(f))
    else
      assert obj.Tagged? ==> CheckedOutIds(s) - {obj.id} == CheckedOutIds(s);
      Step(s, Done(false))
  }

  /** The retry counter value of the last attempt `getObj(tryTimes)` can make
      before giving up: 0, or `tryTimes` itself when that is negative. */
  function LastTry(tryTimes: int): int
  {
    if tryTimes < 0 then tryTimes else 0
  }

  /** Popping the queue head keeps the invariant; the head stays a member marked `true`. */
  lemma PopKeepsInv(cfg: PoolConf, s: PoolState)
    requires Inv(cfg, s)
    requires s.queue != []
    ensures Inv(cfg, s.(queue := s.queue[1..]))
    ensures s.queue[0] in s.members && s.members[s.queue[0]]
    ensures s.queue[0] !in s.queue[1..]
    ensures Dropped(s.(queue := s.queue[1..]), s.queue[0])
    ensures forall x :: Dropped(s, x) ==> Dropped(s.(queue := s.queue[1..]), x)
  {
    DistinctTail(s.queue);
  }

  /** Lines 134-138 of getObj: mark a popped object lent out and stamp it. */
  function Checkout(cfg: PoolConf, s: PoolState, id: Id, now: int): (r: PoolState)
    requires Inv(cfg, s)
    requires id in s.members && s.members[id] && id !in s.queue
    ensures Inv(cfg, r)
    ensures id !in CheckedOutIds(s) && CheckedOutIds(r) == CheckedOutIds(s) + {id}
    ensures r.members.Keys == s.members.Keys && r.created == s.created
    ensures r.queue == s.queue && r.destroyed == s.destroyed
    ensures id in r.lastUse && r.lastUse[id] == now
    ensures forall x :: x != id && Dropped(s, x) ==> Dropped(r, x)
  {
    var r := s.(members := s.members[id := false], lastUse := s.lastUse[id := now]);
    assert CheckedOutIds(r) == CheckedOutIds(s) + {id};
    r
  }

  /** What every path of `getObj(tryTimes)` from `s` guarantees about its result `r`:
      the invariant and the destroyed flag are kept, no member is lost, a throw
      carries the last attempt's error, a returned object is newly checked out
      and stamped, nothing else changes status, and dropped objects stay dropped. */
  predicate Acquisition(cfg: PoolConf, s: PoolState, now: int, tryTimes: int, oracle: Oracle, r: Step<Option<Id>>)
  {
    && Inv(cfg, r.state)
    && r.state.destroyed == s.destroyed
    && s.members.Keys <= r.state.members.Keys && r.state.created >= s.created
    && (r.out.Threw? ==>
          || oracle.create(LastTry(tryTimes)) == CreateFails(r.out.fault)
          || oracle.beforeUse(LastTry(tryTimes)) == CheckFails(r.out.fault))
    && (r.out.Done? && r.out.value.Some? ==>
          var id := r.out.value.value;
          && id !in CheckedOutIds(s)
          && CheckedOutIds(r.state) == CheckedOutIds(s) + {id}
          && id in r.state.lastUse && r.state.lastUse[id] == now)
    && (!(r.out.Done? && r.out.value.Some?) ==> CheckedOutIds(r.state) == CheckedOutIds(s))
    && (forall x | x in s.members :: Dropped(s, x) ==> Dropped(r.state, x))
  }

  /** `getObj(timeout, tryTimes)` with a non-blocking pop: lines 92-110, creating
      an object when the queue is empty, then `TakeHead` for the rest. */
  function GetObj(cfg: PoolConf, s: PoolState, now: int, tryTimes: int, oracle: Oracle): (r: Step<Option<Id>>)
    requires Inv(cfg, s)
    ensures Acquisition(cfg, s, now, tryTimes, oracle, r)
    ensures s.destroyed ==> r == Step(s, Done(None))
    // a queued head: see `TakeHead`
    ensures !s.destroyed && s.queue != [] ==> r == TakeHead(cfg, s, now, tryTimes, oracle)
    // an empty queue that cannot grow yields null and no change
    ensures !s.destroyed && s.queue == [] && (s.created >= cfg.maxObjectNum || oracle.create(tryTimes) == NotObject) ==>
      r == Step(s, Done(None))
    // an empty queue with room for a fresh object that passes `beforeUse` lends that object
    ensures !s.destroyed && s.queue == [] && s.created < cfg.maxObjectNum
            && oracle.create(tryTimes) == Made && oracle.beforeUse(tryTimes) == Ready ==>
      && r.out == Done(Some(s.nextId))
      && r.state.queue == []
      && r.state.created == s.created + 1
    // a fresh object that `beforeUse` refuses or throws on leaves no trace in
    // the queue but stays counted
    ensures !s.destroyed && s.queue == [] && s.created < cfg.maxObjectNum
            && oracle.create(tryTimes) == Made && !oracle.beforeUse(tryTimes).Ready? ==>
      Dropped(r.state, s.nextId)
    decreases tryTimes, 1
  {
    if s.destroyed then Step(s, Done(None))
    else if s.queue != [] then TakeHead(cfg, s, now, tryTimes, oracle)
    else
      var init := InitObject(cfg, s, now, oracle.create(tryTimes));
      if init.out.Threw? then
        if tryTimes <= 0 then Step(init.state, Threw(init.out.fault))
        else GetObj(cfg, init.state, now, tryTimes - 1, oracle)
      else if init.state.queue == [] then Step(init.state, Done(None))
      else TakeHead(cfg, init.state, now, tryTimes, oracle)
  }

  /** Lines 111-138 of `getObj`: pop the head and consult `beforeUse`. */
  function TakeHead(cfg: PoolConf, s: PoolState, now: int, tryTimes: int, oracle: Oracle): (r: Step<Option<Id>>)
    requires Inv(cfg, s) && !s.destroyed && s.queue != []
    ensures Acquisition(cfg, s, now, tryTimes, oracle, r)
    // a head that passes `beforeUse` is the object lent out
    ensures oracle.beforeUse(tryTimes) == Ready ==>
      && r.out == Done(Some(s.queue[0]))
      && r.state.queue == s.queue[1..]
      && r.state.created == s.created
    // a head that `beforeUse` refuses or throws on leaves the queue but stays counted
    ensures !oracle.beforeUse(tryTimes).Ready? ==> Dropped(r.state, s.queue[0])
    // on the last attempt a refusal gives null and a throw is rethrown, once the head is dropped
    ensures tryTimes <= 0 && oracle.beforeUse(tryTimes) == Refused ==>
      r == Step(s.(queue := s.queue[1..]), Done(None))
    ensures tryTimes <= 0 && oracle.beforeUse(tryTimes).CheckFails? ==>
      r == Step(s.(queue := s.queue[1..]), Threw(oracle.beforeUse(tryTimes).fault))
    decreases tryTimes, 0
  {
    var id := s.queue[0];
    PopKeepsInv(cfg, s);
    var popped := s.(queue := s.queue[1..]);
    // a refused or failing object is passed to unsetObj while still marked
    // `true`, which leaves it alone (UnsetQueuedIsNoOp): it stays counted
    match oracle.beforeUse(tryTimes)
    case Ready =>
      assert forall x :: Dropped(s, x) ==> Dropped(popped, x) && x != id;
      Step(Checkout(cfg, popped, id, now), Done(Some(id)))
    case Refused =>
      if tryTimes <= 0 then Step(popped, Done(None))
      else
        // the retry runs inside the `try` around `beforeUse`, so its throw
        // is caught there: rethrown when the decremented counter is spent,
        // otherwise retried once more with the counter decremented again
        var retry := GetObj(cfg, popped, now, tryTimes - 1, oracle);
        if !retry.out.Threw? then retry
        else if tryTimes - 1 <= 0 then retry
        else GetObj(cfg, retry.state, now, tryTimes - 2, oracle)
    case CheckFails(f) =>
      if tryTimes <= 0 then Step(popped, Threw(f))
      else GetObj(cfg, popped, now, tryTimes - 1, oracle)
  }

  /** `status()`: the number of objects in use is the number of members not
      in the queue, never negative. */
  function Status(cfg: PoolConf, s: PoolState): (r: StatusReport)
    requires Inv(cfg, s)
    ensures r.created == s.created && r.max == cfg.maxObjectNum && r.min == cfg.minObjectNum
    ensures 0 <= r.inuse == |s.members.Keys - Elems(s.queue)| <= r.created
  {
    InUseCount(cfg, s);
    StatusReport(s.created, s.created - |s.queue|, cfg.maxObjectNum, cfg.minObjectNum)
  }

  /** The members split into the queued ones and the rest, and the queue has no repeats. */
  lemma InUseCount(cfg: PoolConf, s: PoolState)
    requires Inv(cfg, s)
    ensures 0 <= s.created - |s.queue| == |s.members.Keys - Elems(s.queue)| <= s.created
  {
    DistinctWithin(s.queue, s.members.Keys);
    assert Elems(s.queue) <= s.members.Keys;
    assert s.members.Keys == (s.members.Keys - Elems(s.queue)) + Elems(s.queue);
  }

  /** `destroyPool`: set the flag and drain the queue through `unsetObj`.
      Each drained object is still marked `true`, so nothing is uncounted. */
  method DestroyPool(cfg: PoolConf, s: PoolState, gc: Id -> Hook) returns (r: PoolState)
    requires Inv(cfg, s)
    ensures Inv(cfg, r)
    ensures r.destroyed && r.queue == []
    ensures r.members == s.members && r.created == s.created
    ensures r.lastUse == s.lastUse && r.nextId == s.nextId
  {
    r := s.(destroyed := true);
    while r.queue != []
      invariant Inv(cfg, r)
      invariant r.destroyed
      invariant r.members == s.members && r.created == s.created
      invariant r.lastUse == s.lastUse && r.nextId == s.nextId
      decreases |r.queue|
    {
      var item := r.queue[0];
      PopKeepsInv(cfg, r);
      r := r.(queue := r.queue[1..]);
      var u := UnsetObj(cfg, r, Tagged(item), gc(item));
      r := u.state;
    }
  }

  /** The instance `invoke`: borrow an object (three retries), run the
      callback, and give the object back on every exit path. */
  function Invoke<V>(cfg: PoolConf, s: PoolState, now: int, oracle: Oracle,
                     call: Outcome<V>, restore: Hook, gc: Hook): (r: Step<V>)
    requires Inv(cfg, s)
    ensures Inv(cfg, r.state)
    ensures CheckedOutIds(r.state) == CheckedOutIds(s)
    ensures s.destroyed ==> r == Step(s, Threw(PoolEmpty))
    ensures r.out.Done? ==> r.out == call
    ensures var got := GetObj(cfg, s, now, 3, oracle);
      && (got.out == Done(None) ==> r.out == Threw(PoolEmpty))
      && (got.out.Threw? ==> r.state == got.state && r.out == Threw(got.out.fault))
      && (got.out.Done? && got.out.value.Some? && restore.Ok? ==>
            r.out == call && r.state.queue == got.state.queue + [got.out.value.value])
      // the release sits in a `finally`, so its error replaces the callback's outcome
      && (got.out.Done? && got.out.value.Some? && restore.HookFails? ==>
            r.out == Threw(if gc.HookFails? then gc.fault else restore.fault))
  {
    var got := GetObj(cfg, s, now, 3, oracle);
    match got.out
    case Threw(f) => Step(got.state, Threw(f))
    case Done(None) => Step(got.state, Threw(PoolEmpty))
    case Done(Some(id)) =>
      var back := RecycleObj(cfg, got.state, Tagged(id), restore, gc);
      Step(back.state, if back.out.Threw? then Threw(back.out.fault) else call)
  }
}

=== FILE: pool_types.dfy ===
/**
  The state of one object pool and the invariant every reachable state keeps.

  A pooled object is represented by its identity (the hash the pool attaches
  to it); the domain object itself is never inspected.  The available queue
  holds identities, the membership map says for each identity whether it is
  sitting in the queue (`true`) or checked out (`false`).
 */
module PoolTypes {
  import opened Seqs

  /** Identity of a pooled object. Fresh identities come from `nextId`. */
  type Id = nat

  /** What a caller or a hook can throw. */
  datatype Fault =
    | UserFault(tag: nat)        // any throwable raised by the factory, a hook or a callback
    | PoolEmpty                  // invoke found no object to lend
    | PoolObjectNumError         // construction with min >= max

  /** An optional value, for `getObj`'s object-or-null result. */
  datatype Option<+T> = None | Some(value: T)

  /** A PHP call either returns a value or throws. */
  datatype Outcome<+T> = Done(value: T) | Threw(fault: Fault)

  /** What the factory `createObject` did on one call. */
  datatype Creation = Made | NotObject | CreateFails(fault: Fault)

  /** What the `beforeUse` hook did on one call (no hook behaves as `Ready`). */
  datatype Check = Ready | Refused | CheckFails(fault: Fault)

  /** What an `objectRestore` or `gc` hook did (no hook behaves as `Ok`). */
  datatype Hook = Ok | HookFails(fault: Fault)

  /** Anything a caller may hand back to the pool: an object carrying a pool
      hash, or one that carries none (a foreign object, `null`). */
  datatype Handle = Tagged(id: Id) | Untagged

  /** The sizing part of the pool configuration. */
  datatype PoolConf = PoolConf(minObjectNum: int, maxObjectNum: int, maxIdleTime: int)

  /** The pool's bookkeeping. */
  datatype PoolState = PoolState(
    queue: seq<Id>,            // the channel of available objects, head first
    members: map<Id, bool>,    // objHash: true = in the queue, false = checked out
    lastUse: map<Id, int>,     // the __lastUseTime stamp of each object
    created: int,              // createdNum
    destroyed: bool,           // the destroy flag
    nextId: Id                 // supply of fresh identities
  )

  /** A transition: the state afterwards and what the call returned or threw. */
  datatype Step<+T> = Step(state: PoolState, out: Outcome<T>)

  /** The outcomes of the factory and of `beforeUse`, one per retry counter value. */
  datatype Oracle = Oracle(create: int -> Creation, beforeUse: int -> Check)

  /** The array returned by `status()`. */
  datatype StatusReport = StatusReport(created: int, inuse: int, max: int, min: int)

  /** How many objects the pool may track: `maxObjectNum`, or none if that is negative. */
  function Capacity(cfg: PoolConf): nat
  {
    if cfg.maxObjectNum > 0 then cfg.maxObjectNum else 0
  }

  /** Every queued identity is a member marked available. */
  predicate QueuedAreAvailable(s: PoolState)
  {
    forall i :: 0 <= i < |s.queue| ==> s.queue[i] in s.members && s.members[s.queue[i]]
  }

  /** Identities handed out so far are below `nextId`, and every member has a stamp. */
  predicate IdsIssued(s: PoolState)
  {
    && (forall id :: id in s.members ==> id < s.nextId)
    && (forall id :: id in s.members ==> id in s.lastUse)
  }

  /** The invariant of every pool state reachable from the constructor. */
  predicate Inv(cfg: PoolConf, s: PoolState)
  {
    && cfg.minObjectNum < cfg.maxObjectNum
    && QueuedAreAvailable(s)
    && Distinct(s.queue)
    && IdsIssued(s)
    && s.created == |s.members|
    && s.created <= Capacity(cfg)
  }

  /** The identities currently lent out. */
  function CheckedOutIds(s: PoolState): set<Id>
  {
    set id | id in s.members && !s.members[id]
  }

  /** An object marked as queued that is no longer in the queue: dropped by
      `getObj` or `destroyPool`, it still counts but can never be reclaimed. */
  predicate Dropped(s: PoolState, id: Id)
  {
    id in s.members && s.members[id] && id !in s.queue
  }

  /** Under the invariant the queue is no longer than the member count,
      which is at most the capacity: the channel of size max + 8 never fills. */
  lemma QueueBound(cfg: PoolConf, s: PoolState)
    requires Inv(cfg, s)
    ensures |s.queue| <= s.created <= Capacity(cfg)
    ensures s.queue != [] ==> |s.queue| <= cfg.maxObjectNum < cfg.maxObjectNum + 8
  {
    DistinctWithin(s.queue, s.members.Keys);
  }
}

=== FILE: properties.dfy ===
/**
  Properties that relate several calls on the pool: bounded retries, no double
  checkout or release, what a refused object and a shutdown leave behind,
  the exact effect of idle eviction, and a small usage scenario.
 */
module PoolProperties {
  import opened Seqs
  import opened PoolTypes
  import opened Pool
  import opened Maintenance

  /** With an empty queue and room to grow, `getObj(tryTimes = k)` raises the
      factory's error only when all k + 1 attempts fail, leaving the state as it was. */
  lemma {:induction false} GetObjCreationRetries(cfg: PoolConf, s: PoolState, now: int, k: int, oracle: Oracle)
    requires Inv(cfg, s) && !s.destroyed && s.queue == [] && s.created < cfg.maxObjectNum
    requires k >= 0
    requires forall j :: 0 <= j <= k ==> oracle.create(j).CreateFails?
    ensures GetObj(cfg, s, now, k, oracle) == Step(s, Threw(oracle.create(0).fault))
  {
    if k > 0 {
      GetObjCreationRetries(cfg, s, now, k - 1, oracle);
    }
  }

  /** Conversely, if the attempt with counter `i` creates an object that passes
      `beforeUse` and only the attempts before it failed, that fresh object is returned. */
  lemma {:induction false} GetObjRecovers(cfg: PoolConf, s: PoolState, now: int, k: int, i: int, oracle: Oracle)
    requires Inv(cfg, s) && !s.destroyed && s.queue == [] && s.created < cfg.maxObjectNum
    requires 0 <= i <= k
    requires forall j :: i < j <= k ==> oracle.create(j).CreateFails?
    requires oracle.create(i) == Made && oracle.beforeUse(i) == Ready
    ensures GetObj(cfg, s, now, k, oracle).out == Done(Some(s.nextId))
    ensures GetObj(cfg, s, now, k, oracle).state.created == s.created + 1
  {
    var init := InitObject(cfg, s, now, oracle.create(k));
    if k > i {
      assert init == Step(s, Threw(oracle.create(k).fault));
      GetObjRecovers(cfg, s, now, k - 1, i, oracle);
    } else {
      assert init.out == Done(true) && init.state.queue == [s.nextId];
    }
  }

  /** A factory that fails twice and then succeeds still yields an object
      from `getObj` with the default three retries. */
  lemma FlakyFactoryScenario(cfg: PoolConf, s: PoolState, now: int, oracle: Oracle)
    requires Inv(cfg, s) && !s.destroyed && s.queue == [] && s.created < cfg.maxObjectNum
    requires oracle.create(3).CreateFails? && oracle.create(2).CreateFails?
    requires oracle.create(1) == Made && oracle.beforeUse(1) == Ready
    ensures GetObj(cfg, s, now, 3, oracle).out == Done(Some(s.nextId))
  {
    GetObjRecovers(cfg, s, now, 3, 1, oracle);
  }

  /** An object lent out is not lent again before it comes back. */
  lemma NoDoubleCheckout(cfg: PoolConf, s: PoolState, now: int, t1: int, t2: int, o1: Oracle, o2: Oracle)
    requires Inv(cfg, s)
    ensures var a := GetObj(cfg, s, now, t1, o1);
            var b := GetObj(cfg, a.state, now, t2, o2);
            a.out.Done? && a.out.value.Some? && b.out.Done? && b.out.value.Some? ==>
              b.out.value.value != a.out.value.value
  {
  }

  /** Giving the same object back twice: the second `recycleObj` is rejected and changes nothing. */
  lemma DoubleRecycleRejected(cfg: PoolConf, s: PoolState, id: Id, r1: Hook, g1: Hook, r2: Hook, g2: Hook)
    requires Inv(cfg, s) && !s.destroyed
    requires id in CheckedOutIds(s)
    ensures var first := RecycleObj(cfg, s, Tagged(id), r1, g1);
            RecycleObj(cfg, first.state, Tagged(id), r2, g2) == Step(first.state, Done(false))
  {
  }

  /** Removing the same object twice: the second `unsetObj` is rejected, so the
      count drops exactly once. */
  lemma UnsetOnce(cfg: PoolConf, s: PoolState, id: Id, g1: Hook, g2: Hook)
    requires Inv(cfg, s)
    requires id in CheckedOutIds(s)
    ensures var first := UnsetObj(cfg, s, Tagged(id), g1);
            && first.state.created == s.created - 1
            && UnsetObj(cfg, first.state, Tagged(id), g2) == Step(first.state, Done(false))
  {
  }

  /** A foreign object (no hash, or a hash this pool does not track) is
      rejected by `recycleObj` on a live pool and by `unsetObj`. */
  lemma ForeignObjectRejected(cfg: PoolConf, s: PoolState, obj: Handle, restore: Hook, gc: Hook)
    requires Inv(cfg, s) && !s.destroyed
    requires obj.Untagged? || obj.id !in s.members
    ensures RecycleObj(cfg, s, obj, restore, gc) == Step(s, Done(false))
    ensures UnsetObj(cfg, s, obj, gc) == Step(s, Done(false))
  {
  }

  /** When `beforeUse` refuses the head object on the last attempt, `getObj`
      returns null and the object drops out of the queue while still marked
      `true` and counted: neither `recycleObj` nor `unsetObj` can reclaim it,
      so the pool has lost one slot for good. */
  lemma RefusedObjectStaysCounted(cfg: PoolConf, s: PoolState, now: int, oracle: Oracle,
                                  restore: Hook, gc: Hook, gc2: Hook)
    requires Inv(cfg, s) && !s.destroyed && s.queue != []
    requires oracle.beforeUse(0) == Refused
    ensures var r := GetObj(cfg, s, now, 0, oracle);
            var id := s.queue[0];
            && r.out == Done(None)
            && r.state.created == s.created
            && id in r.state.members && r.state.members[id] && id !in r.state.queue
            && RecycleObj(cfg, r.state, Tagged(id), restore, gc) == Step(r.state, Done(false))
            && UnsetObj(cfg, r.state, Tagged(id), gc2) == Step(r.state, Done(false))
  {
  }

  /** A retry after a refusal runs inside the `try` around `beforeUse`, so a
      throw from it is caught and the call retries once more. With two queued
      objects and room for one more, the first refused and every later check
      failing, `getObj(2)` drops both queued objects, creates a third that fails
      too, and ends in null rather than the hook's error, since the pool is now
      full. All three objects stay counted and none is lent out. */
  lemma RefusedRetryCatchesThrow(cfg: PoolConf, s: PoolState, now: int, oracle: Oracle, f: Fault)
    requires Inv(cfg, s) && !s.destroyed && |s.queue| == 2 && s.created + 1 == cfg.maxObjectNum
    requires oracle.create(0) == Made
    requires oracle.beforeUse(2) == Refused
    requires oracle.beforeUse(1) == CheckFails(f) && oracle.beforeUse(0) == CheckFails(f)
    ensures var r := GetObj(cfg, s, now, 2, oracle);
            && r.out == Done(None)
            && r.state.queue == []
            && r.state.created == s.created + 1
            && CheckedOutIds(r.state) == CheckedOutIds(s)
            && Dropped(r.state, s.queue[0]) && Dropped(r.state, s.queue[1])
  {
    var popped := s.(queue := s.queue[1..]);
    PopKeepsInv(cfg, s);
    var drained := popped.(queue := popped.queue[1..]);
    PopKeepsInv(cfg, popped);
    // the nested retry: the second object fails, then a fresh one fails on the last attempt
    var inner := GetObj(cfg, drained, now, 0, oracle);
    assert inner.out == Threw(f) && inner.state.queue == [] && inner.state.created == cfg.maxObjectNum;
    assert GetObj(cfg, popped, now, 1, oracle) == inner;
    // the caught throw leads to one more attempt, on a full pool
    assert GetObj(cfg, inner.state, now, 0, oracle) == Step(inner.state, Done(None));
  }

  /** After shutdown, an object that was queued at the time stays counted:
      giving it back reports success and changes nothing. */
  lemma DestroyedQueuedObjectStaysCounted(cfg: PoolConf, s: PoolState, id: Id, restore: Hook, gc: Hook)
    requires Inv(cfg, s) && s.destroyed
    requires id in s.members && s.members[id]
    ensures RecycleObj(cfg, s, Tagged(id), restore, gc) == Step(s, Done(true))
  {
  }

  /** After `idleCheck`, an object is queued exactly when it was queued and not expired. */
  lemma IdleCheckKeeps(cfg: PoolConf, s: PoolState, idle: int, now: int, gc: Id -> Hook, id: Id)
    requires Inv(cfg, s)
    ensures var r := IdleCheck(cfg, s, idle, now, gc);
            r.out.Done? ==> (id in r.state.queue <==> id in s.queue && !Expired(s.lastUse, idle, now, id))
  {
    SplitSpec(s.queue, s.lastUse, idle, now);
  }

  /** `idleCheck` removes exactly the expired queued objects from the membership
      map, keeps every other member as it was, and lowers the count by the
      number of objects removed. */
  lemma IdleCheckRemoves(cfg: PoolConf, s: PoolState, idle: int, now: int, gc: Id -> Hook, id: Id)
    requires Inv(cfg, s)
    ensures var r := IdleCheck(cfg, s, idle, now, gc);
            r.out.Done? ==>
              && (id in s.queue && Expired(s.lastUse, idle, now, id) ==> id !in r.state.members)
              && (id in s.members && !(id in s.queue && Expired(s.lastUse, idle, now, id)) ==>
                    id in r.state.members && r.state.members[id] == s.members[id])
  {
    SplitSpec(s.queue, s.lastUse, idle, now);
  }

  /** The count falls by one per distinct object removed. */
  lemma IdleCheckCount(cfg: PoolConf, s: PoolState, idle: int, now: int, gc: Id -> Hook)
    requires Inv(cfg, s)
    ensures var r := IdleCheck(cfg, s, idle, now, gc);
            r.out.Done? ==> s.created - r.state.created == |Elems(Evicted(s.queue, s.lastUse, idle, now))|
  {
    SplitDistinct(s.queue, s.lastUse, idle, now);
    DistinctCard(Evicted(s.queue, s.lastUse, idle, now));
  }

  /** The eviction test is strict: an object exactly `idle` seconds old
      survives, one a second older is removed. */
  lemma IdleBoundary(cfg: PoolConf, s: PoolState, idle: int, now: int, gc: Id -> Hook, id: Id)
    requires Inv(cfg, s)
    requires id in s.queue
    ensures var r := IdleCheck(cfg, s, idle, now, gc);
            r.out.Done? ==>
              && (now - s.lastUse[id] == idle ==> id in r.state.queue)
              && (now - s.lastUse[id] == idle + 1 ==> id !in r.state.members)
  {
    IdleCheckKeeps(cfg, s, idle, now, gc, id);
    IdleCheckRemoves(cfg, s, idle, now, gc, id);
  }

  /** With an empty queue and room to grow, a fresh object that passes
      `beforeUse` is created, lent and stamped, and nothing else changes. */
  lemma LendFresh(cfg: PoolConf, s: PoolState, now: int, tryTimes: int, oracle: Oracle)
    requires Inv(cfg, s) && !s.destroyed && s.queue == [] && s.created < cfg.maxObjectNum
    requires oracle.create(tryTimes) == Made && oracle.beforeUse(tryTimes) == Ready
    ensures GetObj(cfg, s, now, tryTimes, oracle)
         == Step(s.(members := s.members[s.nextId := false], lastUse := s.lastUse[s.nextId := now],
                    created := s.created + 1, nextId := s.nextId + 1),
                 Done(Some(s.nextId)))
  {
    var init := InitObject(cfg, s, now, Made);
    assert init.state.queue == [s.nextId];
    assert GetObj(cfg, s, now, tryTimes, oracle) == TakeHead(cfg, init.state, now, tryTimes, oracle);
  }

  /** A queued head that passes `beforeUse` is lent and stamped, and nothing else changes. */
  lemma LendHead(cfg: PoolConf, s: PoolState, now: int, tryTimes: int, oracle: Oracle)
    requires Inv(cfg, s) && !s.destroyed && s.queue != []
    requires oracle.beforeUse(tryTimes) == Ready
    ensures GetObj(cfg, s, now, tryTimes, oracle)
         == Step(s.(queue := s.queue[1..], members := s.members[s.queue[0] := false],
                    lastUse := s.lastUse[s.queue[0] := now]),
                 Done(Some(s.queue[0])))
  {
  }

  /** The first two acquisitions of the two-slot scenario: each creates and lends a fresh object. */
  lemma TwoFreshLoans(cfg: PoolConf, s0: PoolState, now: int, oracle: Oracle)
    requires cfg.maxObjectNum == 2
    requires Inv(cfg, s0) && !s0.destroyed && s0.queue == [] && s0.created == 0 && s0.nextId == 0
    requires oracle.create(3) == Made && oracle.beforeUse(3) == Ready
    ensures var a := GetObj(cfg, s0, now, 3, oracle);
            var b := GetObj(cfg, a.state, now, 3, oracle);
            && a.out == Done(Some(0)) && b.out == Done(Some(1))
            && !b.state.destroyed && b.state.queue == [] && b.state.created == 2
            && CheckedOut(b.state, Tagged(0))
  {
    LendFresh(cfg, s0, now, 3, oracle);
    LendFresh(cfg, GetObj(cfg, s0, now, 3, oracle).state, now, 3, oracle);
  }

  /** The rest of the two-slot scenario: the full pool lends nothing, and a
      released object is lent again. */
  lemma ReleaseAndReuse(cfg: PoolConf, s: PoolState, now: int, oracle: Oracle)
    requires cfg.maxObjectNum == 2
    requires Inv(cfg, s) && !s.destroyed && s.queue == [] && s.created == 2 && CheckedOut(s, Tagged(0))
    requires oracle.beforeUse(3) == Ready
    ensures var c := GetObj(cfg, s, now, 3, oracle);
            var back := RecycleObj(cfg, c.state, Tagged(0), Ok, Ok);
            var d := GetObj(cfg, back.state, now, 3, oracle);
            && c.out == Done(None)
            && back.out == Done(true)
            && d.out == Done(Some(0))
            && Status(cfg, d.state).inuse == 2
  {
    LendHead(cfg, RecycleObj(cfg, s, Tagged(0), Ok, Ok).state, now, 3, oracle);
  }

  /** Two slots, healthy factory: two acquires succeed, a third finds the pool
      exhausted, and after one release the third succeeds with the released object. */
  lemma TwoSlotScenario(cfg: PoolConf, s0: PoolState, now: int, oracle: Oracle)
    requires cfg.minObjectNum < cfg.maxObjectNum == 2 && NewPool(cfg) == Done(s0)
    requires oracle.create(3) == Made && oracle.beforeUse(3) == Ready
    ensures var a := GetObj(cfg, s0, now, 3, oracle);
            var b := GetObj(cfg, a.state, now, 3, oracle);
            var c := GetObj(cfg, b.state, now, 3, oracle);
            var back := RecycleObj(cfg, c.state, Tagged(0), Ok, Ok);
            var d := GetObj(cfg, back.state, now, 3, oracle);
            && a.out == Done(Some(0))
            && b.out == Done(Some(1))
            && c.out == Done(None)
            && back.out == Done(true)
            && d.out == Done(Some(0))
            && Status(cfg, d.state).inuse == 2
  {
    TwoFreshLoans(cfg, s0, now, oracle);
    ReleaseAndReuse(cfg, GetObj(cfg, GetObj(cfg, s0, now, 3, oracle).state, now, 3, oracle).state, now, oracle);
  }
}

=== FILE: seqs.dfy ===
/** Facts about sequences without repeated elements, used to count the pool's queue. */
module Seqs {

  /** No element occurs twice. */
  predicate Distinct<T(==)>(q: seq<T>)
  {
    forall i, j :: 0 <= i < j < |q| ==> q[i] != q[j]
  }

  /** The set of elements of a sequence. */
  function Elems<T(==)>(q: seq<T>): set<T>
  {
    set x | x in q
  }

  /** A sequence without repeats has as many elements as its set of elements. */
  lemma {:induction false} DistinctCard<T>(q: seq<T>)
    requires Distinct(q)
    ensures |Elems(q)| == |q|
  {
    if q != [] {
      var tail := q[1..];
      assert Distinct(tail) by {
        forall i, j | 0 <= i < j < |tail| ensures tail[i] != tail[j] {
          assert tail[i] == q[i + 1] && tail[j] == q[j + 1];
        }
      }
      assert q[0] !in tail by {
        forall k | 0 <= k < |tail| ensures tail[k] != q[0] {
          assert tail[k] == q[k + 1];
        }
      }
      assert Elems(q) == Elems(tail) + {q[0]} by {
        assert q == [q[0]] + tail;
      }
      DistinctCard(tail);
    }
  }

  /** A subset is no larger than its superset. */
  lemma {:induction false} SubsetCard<T>(a: set<T>, b: set<T>)
    requires a <= b
    ensures |a| <= |b|
  {
    if a != {} {
      var x :| x in a;
      SubsetCard(a - {x}, b - {x});
    }
  }

  /** A repeat-free sequence drawn from a set is no longer than the set. */
  lemma DistinctWithin<T>(q: seq<T>, s: set<T>)
    requires Distinct(q)
    requires forall i :: 0 <= i < |q| ==> q[i] in s
    ensures |q| <= |s|
    ensures |Elems(q)| == |q|
  {
    DistinctCard(q);
    SubsetCard(Elems(q), s);
  }

  /** Dropping the head of a repeat-free sequence keeps it repeat-free, and the head is not in the rest. */
  lemma DistinctTail<T>(q: seq<T>)
    requires Distinct(q)
    requires q != []
    ensures Distinct(q[1..])
    ensures q[0] !in q[1..]
  {
  }

  /** Putting an absent element in front keeps a sequence repeat-free. */
  lemma DistinctCons<T>(x: T, q: seq<T>)
    requires Distinct(q)
    requires x !in q
    ensures Distinct([x] + q)
  {
  }

  /** Appending an element not yet present keeps a sequence repeat-free. */
  lemma DistinctAppend<T>(q: seq<T>, x: T)
    requires Distinct(q)
    requires x !in q
    ensures Distinct(q + [x])
  {
  }
}
